=== FILE: README.md ===
# decompile: a verified model of the YAML-to-JSON batch converter

`bin/decompile.js` converts the compiled GitHub workflow files in `./.github/workflows`
from YAML to JSON. Its one function, `run(files)`, picks a working set of file names, then,
for each name, reads `./.github/workflows/<name>`, parses it with `js-yaml`, and writes the
pretty-printed JSON to `./.github/workflows/src/<new name>`, where a trailing `.yml` becomes
`.json`.

This project models the deterministic part of `run` in Dafny and proves its laws:

- **Working set** (`Decompile.WorkingSet`): a non-empty argument list is used verbatim;
  otherwise the directory listing is filtered, in order, to the entries whose
  `path.extname` matches `/ya?ml/`. The listing is a `Result` parameter that is consulted
  only when there are no arguments, so a missing directory is fatal only then.
- **Node's `path.extname`** (`PathExt.Extname`), POSIX flavour: trailing `/` ignored, the
  last component's suffix from its last `.`, and no extension for dot-less names, for
  names whose only dot leads them (`.yml`), and for `..`.
- **The regex `/ya?ml/`** (`Decompile.Search`): an unanchored, case-sensitive leftmost
  search, proved equal to "contains `yml` or `yaml`".
- **Renaming and paths** (`Decompile.Rename`, `InputPath`, `OutputPath`): only a final
  `.yml` is rewritten, so `custom.yaml` keeps its name.
- **The plan** (`Decompile.Plan`): one job `(name, input path, output path)` per
  working-set entry, in order.
- **Per-file conversion** (`Conversion`): each job reads from a snapshot of the files,
  converts through a parameter standing for `yaml.load` plus `JSON.stringify(…, null, 2)`,
  and writes if its output path accepts writes. A failure stays inside its own job.

Main results:

- Auto-discovery never plans two jobs onto one output file (`DiscoveredOutputsDistinct`).
  Two different discoverable names never get the same output name
  (`RenameInjectiveOnDiscoverable`).
- No discovered job writes a file that a job of the same run reads
  (`DiscoveredOutputsNeverInputs`).
- So every discovered file that reads, converts and writes cleanly ends up converted,
  whatever happens to its siblings (`DiscoveryIsolation`).
- Explicit arguments carry no such guarantee: `a.yml` and `a.json` both write `src/a.json`
  (`ExplicitArgsMayCollide`).

The model follows the code where a looser reading might differ:

- Discovery accepts any extension that contains `yml` or `yaml`, not only the two usual
  spellings. So `odd.ymlx` is picked up, while `CI.YML`, `.yml` (no extension) and
  `old.yml.bak` are not.
- A discovered `.yaml` file keeps its name on output, as the code does. Renaming it as
  well may have been the intent, but the code does not do that.

Files: `wrappers.dfy` (Option, Result), `strings.dfy`, `sequences.dfy` (filter,
subsequence, no-duplicates), `pathext.dfy`, `decompile.dfy`, `conversion.dfy`,
`scenarios.dfy`.

## Model

| member | source | states |
|---|---|---|
| `PathExt.TrimTrailingSlashes` | bin/decompile.js:11 | `path.extname` first drops the trailing run of `/`: the result is a prefix of the path that does not end in `/`, and only `/` characters were removed. |
| `PathExt.Basename` | bin/decompile.js:11 | The component `path.extname` inspects is the whole last component of the slash-trimmed path: it contains no `/`, ends that path, and is either all of it or preceded by a `/`. For a name without `/` it is the name itself. |
| `PathExt.NameExt` | bin/decompile.js:11 | The extension of one name component is empty exactly when the component has no dot after its first character or is `..`. Otherwise it is the component's proper suffix that starts with its only dot. |
| `PathExt.Extname` | bin/decompile.js:11 | `path.extname` is empty or a dot-led suffix of the slash-trimmed path with no further dot and no `/`. For a name without `/` it is that name's component extension. |
| `PathExt.ExtnameOfStemAndExt` | bin/decompile.js:11 | A name without `/`, other than `..`, made of a non-empty stem followed by an extension whose only `.` is its first character has exactly that extension. |
| `PathExt.ExtnameOfDotSuffix` | bin/decompile.js:11 | A name ending in a suffix whose only `.` is its first character has that suffix as its extension or none. |
| `PathExt.ExtnameOfJsonName` | bin/decompile.js:11 | A name ending in `.json` has extension `.json` or none. |
| `Decompile.MatchHere` | bin/decompile.js:11 | The anchored `/ya?ml/` matcher, which tries the optional `a` first, succeeds at index i exactly when `yml` or `yaml` starts there. |
| `Decompile.Search` | bin/decompile.js:11 | The search returns the leftmost index where `/ya?ml/` matches, and None exactly when no index matches. |
| `Decompile.MatchesYaml` | bin/decompile.js:11 | `ext.match(/ya?ml/)` is truthy exactly when `yml` or `yaml` starts at some index of the extension. |
| `Decompile.MatchesYamlIffContains` | bin/decompile.js:11 | `ext.match(/ya?ml/)` is truthy if and only if the extension contains `yml` or `yaml`. |
| `Decompile.Discoverable` | bin/decompile.js:11 | An entry is kept exactly when `yml` or `yaml` occurs in its extension, which then starts with `.` and has at least four characters. |
| `Decompile.Discover` | bin/decompile.js:11 | The filtered listing is an in-order subsequence of the listing. Each discoverable entry keeps its multiplicity and every other entry is dropped. |
| `Decompile.WorkingSet` | bin/decompile.js:10-12 | Non-empty arguments are the working set verbatim. With no arguments, the result fails exactly when the listing does. Otherwise it is an ordered subsequence of the listing in which every discoverable entry keeps its multiplicity and every other entry is gone. |
| `Decompile.ArgsIgnoreListing` | bin/decompile.js:10-12 | With arguments the plan does not depend on the directory listing, never fails, and has one job per argument. |
| `Decompile.Rename` | bin/decompile.js:19 | The new name never ends in `.yml`. It differs from the old name exactly when the old name ends in `.yml`. In that case it keeps the prefix before `.yml`, ends in `.json`, and is one character longer. |
| `Decompile.RenameIdempotent` | bin/decompile.js:19 | Renaming a renamed name changes nothing. |
| `Decompile.RenameCollision` | bin/decompile.js:19 | Two different names get the same new name only if one of them already ends in `.json`. |
| `Decompile.JsonNotDiscoverable` | bin/decompile.js:11 | A name ending in `.json` is never picked up by discovery. |
| `Decompile.RenameInjectiveOnDiscoverable` | bin/decompile.js:11-19 | Two discoverable names with the same new name are the same name. |
| `Decompile.InputPath` | bin/decompile.js:16 | The input path is `./.github/workflows/` followed by exactly the entry's name. |
| `Decompile.OutputPath` | bin/decompile.js:20 | The output path is `./.github/workflows/src/` followed by the renamed entry and never ends in `.yml`. A `.yml` entry's output ends in `.json` with the same stem; any other entry keeps its name. |
| `Decompile.InputPathInjective` | bin/decompile.js:16 | Different names are read from different paths. |
| `Decompile.OutputNeverInput` | bin/decompile.js:16-20 | A name without `/` is never read from a path that any name is written to. |
| `Decompile.Jobs` | bin/decompile.js:14-23 | The loop yields one job per working-set entry, in order. Job i reads `BaseDir/<name>` and writes `BaseDir/src/<renamed name>`. |
| `Decompile.Plan` | bin/decompile.js:9-23 | The plan fails exactly when the working set cannot be formed. Otherwise it has one job per working-set entry. Job i reads entry i's input path and writes entry i's output path. |
| `Decompile.DiscoveredOutputsDistinct` | bin/decompile.js:10-20 | Under auto-discovery of a listing without repeats, all planned output paths are pairwise different. |
| `Decompile.DiscoveredOutputsNeverInputs` | bin/decompile.js:10-20 | Under auto-discovery of entries without `/`, no planned output path is any planned input path. |
| `Sequences.Filter` | bin/decompile.js:11 | The filter result is an in-order subsequence of the input. Each element passing the test keeps its multiplicity and every other element is gone. |
| `Sequences.FilterMembers` | bin/decompile.js:11 | A value is in the filter result exactly when it is in the input and passes the test. |
| `Sequences.FilterNoDuplicates` | bin/decompile.js:11 | Filtering a sequence without repeats gives a sequence without repeats. |
| `Conversion.RunJob` | bin/decompile.js:16-21 | A job writes exactly when its input exists, converts, and its output accepts the write. The write goes to the job's output with the converted text. A read failure happens exactly when the input is missing. A parse failure happens exactly when the input exists but does not convert. Read and parse failures name the input; a write failure names the output. |
| `Conversion.Outcomes` | bin/decompile.js:14-23 | The `forEach` gives one outcome per job, in plan order, each depending only on its own job. |
| `Conversion.Written` | bin/decompile.js:21 | A path holds a file after the run exactly when some job wrote to it. |
| `Conversion.WrittenKeepsUniqueWrite` | bin/decompile.js:21 | A write that no other job repeats on the same path survives with its text. |
| `Conversion.PlanIsolation` | bin/decompile.js:14-23 | When all jobs write different paths, a job that reads, converts and writes leaves its JSON behind whatever the other jobs do. |
| `Conversion.Run` | bin/decompile.js:9-24 | A run fails exactly when its plan does, which means no arguments were given and the directory could not be listed. |
| `Conversion.DiscoveryIsolation` | bin/decompile.js:9-24 | Under auto-discovery of a listing without repeats, every discoverable entry whose input reads, converts and writes has the converted text at its output path, whatever happens to the other entries. |
| `Scenarios.RegexCases` | bin/decompile.js:11 | `/ya?ml/` accepts `.yml`, `.yaml` and `.ymlx`. It rejects `.json`, `.md`, the upper-case `.YML` and the empty extension. |
| `Scenarios.ExtensionDecidesDiscovery` | bin/decompile.js:11 | For a name without `/`, other than `..`, made of a non-empty stem and an extension whose only `.` is its first character, discovery depends only on whether the extension matches. |
| `Scenarios.NoExtensionNotDiscovered` | bin/decompile.js:11 | Names without a dot after their first character, such as `.yml` and `Makefile`, are never discovered. |
| `Scenarios.StemExtDiscoverable` | bin/decompile.js:11 | For a name without `/`, a non-empty stem with `.yml` or `.yaml` is discovered and one with `.md` is not. |
| `Scenarios.DiscoverMixedListing` | bin/decompile.js:11 | From a `.yml`, a `.md` and a `.yaml` entry, discovery keeps the first and the last, in order. |
| `Scenarios.DiscoveryPlan` | bin/decompile.js:10-20 | That listing plans `<a>.yml` to `src/<a>.json` and `<c>.yaml` to `src/<c>.yaml`, in that order. |
| `Scenarios.RenameYml` | bin/decompile.js:19 | `<stem>.yml` is renamed `<stem>.json`. |
| `Scenarios.RenameYaml` | bin/decompile.js:19 | `<stem>.yaml` keeps its name. |
| `Scenarios.ExplicitYamlArg` | bin/decompile.js:10-20 | An explicit `custom.yaml` is read from `BaseDir/custom.yaml` and written to `BaseDir/src/custom.yaml`, whatever the directory listing. |
| `Scenarios.ExplicitArgsMayCollide` | bin/decompile.js:10-20 | The explicit arguments `a.yml` and `a.json` plan two jobs with the same output path. |

## Left out

- Filesystem I/O: `fs.readdir` becomes the `listing` parameter, which is `Err(Unlistable)` when the directory cannot be listed. `fs.readFile` becomes a map from path to text taken before the run. `fs.writeFile` becomes the `canWrite` test plus the map of files written.
- `yaml.load` and `JSON.stringify(…, null, 2)`: these are library calls and are one parameter, `convert`, which yields None where the parser throws. None also stands for `JSON.stringify` throwing (a circular structure built from a self-referencing alias) or yielding `undefined` (an empty or comment-only document, whose write then fails or writes no JSON), and the model reports all of these as ParseFailed naming the input. The YAML/JSON value round trip depends on the js-yaml grammar, so it is not stated.
- `files.forEach(async …)`: the jobs run concurrently and nothing awaits them. `Conversion.Written` applies writes in working-set order. The real order is completion order, so the model is exact only when no two jobs write the same file. That holds for auto-discovery (`DiscoveredOutputsDistinct`), but explicit arguments can collide (`ExplicitArgsMayCollide`).
- Paths are compared as strings and are not normalised: `.` and `..` segments, repeated `/` and symbolic links are not resolved. The model treats two paths as one file only when the strings are identical. So the explicit arguments `a.yml` and `./a.json` name one output file on disk, but `PlanIsolation` sees two different paths. The distinct-outputs guarantee holds for files only under auto-discovery, where directory entries contain no `/` and every path is `./.github/workflows/src/` plus a plain name (`DiscoveredOutputsDistinct`, `DiscoveryIsolation`).
- Reads come from the pre-run snapshot. In the source, a read could see a write from the same run only if an explicit argument names a file under `src/`. Under auto-discovery this cannot happen (`DiscoveredOutputsNeverInputs`).
- Conversion.DiscoveryIsolation: this states isolation between jobs, not process survival. In recent Node versions an unhandled rejection from one failed job can end the process before its siblings finish writing. That depends on the runtime and on timing, so it is not modelled.
- `console.info` logging and the `process.argv.slice(2)` command-line plumbing (lines 15, 22, 26) have no bearing on which files are read or written.
- `path.extname` is Node library code, not part of this repository. `PathExt` follows Node's POSIX algorithm; the Windows variant is not modelled. Strings are sequences of characters, and JavaScript's UTF-16 code units are not distinguished.

=== FILE: conversion.dfy ===
/**
  The body of the loop in `run`: each job reads its input, converts it, and writes the
  result. Parsing the YAML text and printing it as JSON are one parameter, `convert`,
  which yields None where the parser throws, where the printer throws (a circular
  structure), or where it yields no text (an empty document). File contents are a map from path to text,
  taken as they stand before the run, and `canWrite` says which output paths accept a
  write (the `src` directory must already exist).
 */
module Conversion {
  import opened Wrappers
  import opened Sequences
  import opened Decompile

  /** Why one job produced no output. */
  datatype Failure = ReadFailed | ParseFailed | WriteFailed

  /** What one job did: wrote `text` to `path`, or failed on its input `path`. */
  datatype Outcome = Wrote(path: string, text: string) | Failed(path: string, cause: Failure)

  /** The conversion parameters of one run: the file contents, the converter, the writable paths. */
  datatype Env = Env(files: map<string, string>, convert: string -> Option<string>, canWrite: string -> bool)

  /** One job: read `j.input`, convert it, write the result to `j.output`. */
  function RunJob(j: Job, env: Env): (o: Outcome)
    ensures o.Wrote? <==> j.input in env.files && env.convert(env.files[j.input]).Some? && env.canWrite(j.output)
    ensures o.Wrote? ==> o.path == j.output && Some(o.text) == env.convert(env.files[j.input])
    ensures o.Failed? && o.cause == ReadFailed <==> j.input !in env.files
    ensures o.Failed? && o.cause == ParseFailed <==> j.input in env.files && env.convert(env.files[j.input]).None?
    ensures o.Failed? && o.cause != WriteFailed ==> o.path == j.input
    ensures o.Failed? && o.cause == WriteFailed ==> o.path == j.output
  {
    if j.input !in env.files then Failed(j.input, ReadFailed)
    else
      match env.convert(env.files[j.input])
      case None => Failed(j.input, ParseFailed)
      case Some(text) => if env.canWrite(j.output) then Wrote(j.output, text) else Failed(j.output, WriteFailed)
  }

  /** The files a sequence of outcomes leaves behind; a later write to a path replaces an earlier one. */
  function Written(os: seq<Outcome>): (w: map<string, string>)
    ensures forall p :: p in w <==> exists i :: 0 <= i < |os| && os[i].Wrote? && os[i].path == p
  {
    if |os| == 0 then map[]
    else
      var init, last := os[..|os| - 1], os[|os| - 1];
      var w := Written(init);
      assert forall i :: 0 <= i < |init| ==> init[i] == os[i];
      if last.Wrote? then w[last.path := last.text] else w
  }

  /** A write that no other outcome overwrites survives in the final files. */
  lemma {:induction false} WrittenKeepsUniqueWrite(os: seq<Outcome>, k: nat)
    requires k < |os| && os[k].Wrote?
    requires forall i :: 0 <= i < |os| && i != k && os[i].Wrote? ==> os[i].path != os[k].path
    ensures os[k].path in Written(os) && Written(os)[os[k].path] == os[k].text
  {
    var init := os[..|os| - 1];
    if k < |os| - 1 {
      assert forall i :: 0 <= i < |init| ==> init[i] == os[i];
      WrittenKeepsUniqueWrite(init, k);
    }
  }

  /** The outcome of every job, in plan order. */
  function Outcomes(js: seq<Job>, env: Env): (os: seq<Outcome>)
    ensures |os| == |js|
    ensures forall i :: 0 <= i < |js| ==> os[i] == RunJob(js[i], env)
  {
    seq(|js|, i requires 0 <= i < |js| => RunJob(js[i], env))
  }

  /**
    In a plan whose jobs all write different files, a job that reads and converts its
    input leaves its JSON behind, whatever the other jobs do.
   */
  lemma PlanIsolation(js: seq<Job>, env: Env, k: nat)
    requires forall i, j :: 0 <= i < j < |js| ==> js[i].output != js[j].output
    requires k < |js| && js[k].input in env.files && env.convert(env.files[js[k].input]).Some?
    requires env.canWrite(js[k].output)
    ensures var w := Written(Outcomes(js, env));
      js[k].output in w && w[js[k].output] == env.convert(env.files[js[k].input]).value
  {
    var os := Outcomes(js, env);
    forall i | 0 <= i < |os| && i != k && os[i].Wrote?
      ensures os[i].path != os[k].path
    {
      assert os[i].path == js[i].output;
    }
    WrittenKeepsUniqueWrite(os, k);
  }

  /** `run(args)`: the files written, or the failure to list the source directory. */
  function Run(args: seq<string>, listing: Result<seq<string>, DiscoveryError>, env: Env): (r: Result<map<string, string>, DiscoveryError>)
    ensures r.Ok? <==> Plan(args, listing).Ok?
  {
    match Plan(args, listing)
    case Err(e) => Err(e)
    case Ok(js) => Ok(Written(Outcomes(js, env)))
  }

  /**
    Failure isolation under auto-discovery: every discovered entry whose input can be
    read, converted and written has its JSON in its output file, whatever happens to
    the other entries.
   */
  lemma DiscoveryIsolation(listing: seq<string>, env: Env, f: string)
    requires NoDuplicates(listing)
    requires f in listing && Discoverable(f)
    requires InputPath(f) in env.files && env.convert(env.files[InputPath(f)]).Some?
    requires env.canWrite(OutputPath(f))
    ensures Run([], Ok(listing), env).Ok?
    ensures var w := Run([], Ok(listing), env).value;
      OutputPath(f) in w && w[OutputPath(f)] == env.convert(env.files[InputPath(f)]).value
  {
    var names := Discover(listing);
    var js := Jobs(names);
    assert Plan([], Ok(listing)) == Ok(js);
    assert f in names;
    var k :| 0 <= k < |names| && names[k] == f;
    DiscoveredOutputsDistinct(listing);
    PlanIsolation(js, env, k);
  }
}

=== FILE: decompile.dfy ===
/**
  The pure part of `run` in bin/decompile.js: choosing the working set, the discovery
  filter on extensions, the ".yml" to ".json" rename, and the (input, output) path pair
  that each working-set entry is read from and written to.
 */
module Decompile {
  import opened Wrappers
  import opened Strings
  import opened PathExt
  import opened Sequences

  /** The fixed source directory; outputs go to its `src` subdirectory. */
  const BaseDir: string := "./.github/workflows"

  // ---------------------------------------------------------------------------
  // The discovery regex /ya?ml/ (unanchored, case-sensitive)
  // ---------------------------------------------------------------------------

  /** The regex matches at index `i`: "yml" or "yaml" starts there. */
  predicate YaMlAt(s: string, i: nat) {
    OccursAt(s, "yml", i) || OccursAt(s, "yaml", i)
  }

  /** The tail "ml" of the pattern, anchored at `i`. */
  predicate MatchMl(s: string, i: nat) {
    i + 2 <= |s| && s[i] == 'm' && s[i + 1] == 'l'
  }

  /** The pattern anchored at `i`: a 'y', then the optional 'a' (tried first), then "ml". */
  predicate MatchHere(s: string, i: nat)
    ensures MatchHere(s, i) <==> YaMlAt(s, i)
  {
    && i < |s|
    && s[i] == 'y'
    && ((i + 1 < |s| && s[i + 1] == 'a' && MatchMl(s, i + 2)) || MatchMl(s, i + 1))
  }

  /** Leftmost match of the pattern at or after `from`, as an unanchored regex search finds it. */
  function Search(s: string, from: nat): (r: Option<nat>)
    requires from <= |s|
    ensures r.Some? ==> from <= r.value < |s| && YaMlAt(s, r.value)
    ensures r.Some? ==> forall i :: from <= i < r.value ==> !YaMlAt(s, i)
    ensures r.None? ==> forall i :: from <= i ==> !YaMlAt(s, i)
    decreases |s| - from
  {
    if from == |s| then None
    else if MatchHere(s, from) then Some(from)
    else Search(s, from + 1)
  }

  /** `ext.match(/ya?ml/)` is truthy. */
  predicate MatchesYaml(ext: string)
    ensures MatchesYaml(ext) <==> exists i :: 0 <= i < |ext| && YaMlAt(ext, i)
  {
    Search(ext, 0).Some?
  }

  /** The regex test is exactly "the text contains `yml` or `yaml`". */
  lemma MatchesYamlIffContains(ext: string)
    ensures MatchesYaml(ext) <==> Contains(ext, "yml") || Contains(ext, "yaml")
  {
    var r := Search(ext, 0);
    if r.Some? {
      assert OccursAt(ext, "yml", r.value) || OccursAt(ext, "yaml", r.value);
    } else {
      forall i | OccursAt(ext, "yml", i) || OccursAt(ext, "yaml", i)
        ensures false
      {
        assert YaMlAt(ext, i);
      }
    }
  }

  // ---------------------------------------------------------------------------
  // Working-set selection
  // ---------------------------------------------------------------------------

  /** A directory entry is picked up by discovery when its extension matches /ya?ml/. */
  predicate Discoverable(f: string)
    ensures Discoverable(f) ==> |Extname(f)| >= 4 && Extname(f)[0] == '.'
    ensures Discoverable(f) <==> exists i :: 0 <= i < |Extname(f)| && YaMlAt(Extname(f), i)
  {
    MatchesYaml(Extname(f))
  }

  /** `listing.filter(f => path.extname(f).match(/ya?ml/))`. */
  function Discover(listing: seq<string>): (r: seq<string>)
    ensures IsSubsequence(r, listing)
    ensures forall x :: multiset(r)[x] == if Discoverable(x) then multiset(listing)[x] else 0
    ensures forall x :: x in r <==> x in listing && Discoverable(x)
    ensures NoDuplicates(listing) ==> NoDuplicates(r)
  {
    var r := Filter(listing, Discoverable);
    FilterMembers(listing, Discoverable);
    FilterNoDuplicates(listing, Discoverable);
    r
  }

  /** Why the directory could not be listed (missing directory, no permission, ...). */
  datatype DiscoveryError = Unlistable

  /**
    The working set: a non-empty argument list verbatim, otherwise the discovered
    entries of the directory listing. `listing` is what reading the source directory
    would give; it is consulted only when no arguments are given.
   */
  function WorkingSet(args: seq<string>, listing: Result<seq<string>, DiscoveryError>): (r: Result<seq<string>, DiscoveryError>)
    ensures |args| > 0 ==> r == Ok(args)
    ensures |args| == 0 ==> (r.Ok? <==> listing.Ok?)
    ensures |args| == 0 && r.Ok? ==>
      && IsSubsequence(r.value, listing.value)
      && (forall x :: multiset(r.value)[x] == if Discoverable(x) then multiset(listing.value)[x] else 0)
      && (forall x :: x in r.value <==> x in listing.value && Discoverable(x))
  {
    if |args| > 0 then Ok(args)
    else
      match listing
      case Ok(names) => Ok(Discover(names))
      case Err(e) => Err(e)
  }

  // ---------------------------------------------------------------------------
  // Output naming and paths
  // ---------------------------------------------------------------------------

  /** `f.replace(/\.yml$/, '.json')`. */
  function Rename(f: string): (r: string)
    ensures !EndsWith(r, ".yml")
    ensures r != f <==> EndsWith(f, ".yml")
    ensures EndsWith(f, ".yml") ==> |r| == |f| + 1 && r[..|f| - 4] == f[..|f| - 4] && EndsWith(r, ".json")
  {
    if EndsWith(f, ".yml") then
      var r := f[..|f| - 4] + ".json";
      assert r[|r| - 1] == 'n';
      r
    else f
  }

  /** Where entry `f` is read from. */
  function InputPath(f: string): (p: string)
    ensures |p| == |BaseDir| + 1 + |f| && p[..|BaseDir| + 1] == BaseDir + "/" && p[|BaseDir| + 1..] == f
  {
    BaseDir + "/" + f
  }

  /** Where the JSON for entry `f` is written. */
  function OutputPath(f: string): (p: string)
    ensures |p| == |BaseDir| + 5 + |Rename(f)| && p[..|BaseDir| + 5] == BaseDir + "/src/"
    ensures !EndsWith(p, ".yml")
    ensures EndsWith(f, ".yml") ==> EndsWith(p, ".json") && p[|BaseDir| + 5..] == f[..|f| - 4] + ".json"
    ensures !EndsWith(f, ".yml") ==> p[|BaseDir| + 5..] == f
  {
    var r := Rename(f);
    var p := BaseDir + "/src/" + r;
    assert p[|BaseDir| + 5..] == r;
    assert |r| < 4 ==> p[|p| - 4] == "/src/"[|r| + 1];
    assert |r| >= 4 ==> p[|p| - 4..] == r[|r| - 4..];
    p
  }

  /** One read/write of the loop body: the entry, its input path and its output path. */
  datatype Job = Job(name: string, input: string, output: string)

  /** The loop over the working set: one job per entry, in working-set order. */
  function Jobs(names: seq<string>): (js: seq<Job>)
    ensures |js| == |names|
    ensures forall i :: 0 <= i < |names| ==> js[i] == Job(names[i], InputPath(names[i]), OutputPath(names[i]))
  {
    if |names| == 0 then []
    else [Job(names[0], InputPath(names[0]), OutputPath(names[0]))] + Jobs(names[1..])
  }

  /** `run(args)` as the sequence of reads and writes it performs, or the discovery failure. */
  function Plan(args: seq<string>, listing: Result<seq<string>, DiscoveryError>): (r: Result<seq<Job>, DiscoveryError>)
    ensures r.Ok? <==> WorkingSet(args, listing).Ok?
    ensures r.Ok? ==> |r.value| == |WorkingSet(args, listing).value|
    ensures r.Ok? ==> forall i :: 0 <= i < |r.value| ==>
      var f := WorkingSet(args, listing).value[i];
      r.value[i] == Job(f, InputPath(f), OutputPath(f))
  {
    match WorkingSet(args, listing)
    case Ok(names) => Ok(Jobs(names))
    case Err(e) => Err(e)
  }

  // ---------------------------------------------------------------------------
  // Laws
  // ---------------------------------------------------------------------------

  /** Renaming twice is renaming once: a renamed name never ends in ".yml". */
  lemma RenameIdempotent(f: string)
    ensures Rename(Rename(f)) == Rename(f)
  {
  }

  /** Neither ".json" nor an empty extension is picked up by discovery. */
  lemma JsonNotDiscoverable(p: string)
    requires EndsWith(p, ".json")
    ensures !Discoverable(p)
  {
    ExtnameOfJsonName(p);
    assert !MatchHere(".json", 0) && !MatchHere(".json", 1) && !MatchHere(".json", 2);
    assert !MatchHere(".json", 3) && !MatchHere(".json", 4);
  }

  /** Rename merges two names only when one of them already ends in ".json". */
  lemma RenameCollision(f: string, g: string)
    requires Rename(f) == Rename(g) && f != g
    ensures EndsWith(f, ".json") || EndsWith(g, ".json")
  {
  }

  /**
    Two different discoverable names never get the same output name: a name that
    Rename leaves alone but that collides with a renamed ".yml" name would end in ".json",
    which discovery rejects.
   */
  lemma RenameInjectiveOnDiscoverable(f: string, g: string)
    requires Discoverable(f) && Discoverable(g)
    requires Rename(f) == Rename(g)
    ensures f == g
  {
    if f != g {
      RenameCollision(f, g);
      if EndsWith(f, ".json") {
        JsonNotDiscoverable(f);
      } else {
        JsonNotDiscoverable(g);
      }
    }
  }

  /** Distinct entries are read from distinct paths. */
  lemma InputPathInjective(f: string, g: string)
    requires InputPath(f) == InputPath(g)
    ensures f == g
  {
    PrefixCancel(BaseDir + "/", f, g);
  }

  /** With arguments, the directory is never consulted: the plan does not depend on it. */
  lemma ArgsIgnoreListing(args: seq<string>, l1: Result<seq<string>, DiscoveryError>, l2: Result<seq<string>, DiscoveryError>)
    requires |args| > 0
    ensures Plan(args, l1) == Plan(args, l2)
    ensures Plan(args, l1).Ok? && |Plan(args, l1).value| == |args|
  {
  }

  /**
    Under auto-discovery of a directory listing without repeats, no two jobs write the
    same output file.
   */
  lemma DiscoveredOutputsDistinct(listing: seq<string>)
    requires NoDuplicates(listing)
    ensures Plan([], Ok(listing)).Ok?
    ensures var js := Plan([], Ok(listing)).value;
      forall i, j :: 0 <= i < j < |js| ==> js[i].output != js[j].output
  {
    var names := Discover(listing);
    var js := Plan([], Ok(listing)).value;
    forall i, j | 0 <= i < j < |js|
      ensures js[i].output != js[j].output
    {
      if js[i].output == js[j].output {
        var f, g := names[i], names[j];
        PrefixCancel(BaseDir + "/src/", Rename(f), Rename(g));
        RenameInjectiveOnDiscoverable(f, g);
      }
    }
  }

  /** A name without '/' is never read from where some entry is written. */
  lemma OutputNeverInput(f: string, g: string)
    requires '/' !in g
    ensures OutputPath(f) != InputPath(g)
  {
    var o, i := OutputPath(f), InputPath(g);
    assert o[|BaseDir| + 4] == '/';
    assert |i| > |BaseDir| + 4 ==> i[|BaseDir| + 4] == g[3];
  }

  /**
    Directory entries contain no '/', so under auto-discovery no job writes a file that
    any job of the same run reads.
   */
  lemma DiscoveredOutputsNeverInputs(listing: seq<string>)
    requires forall x :: x in listing ==> '/' !in x
    ensures Plan([], Ok(listing)).Ok?
    ensures var js := Plan([], Ok(listing)).value;
      forall i, j :: 0 <= i < |js| && 0 <= j < |js| ==> js[i].output != js[j].input
  {
    var names := Discover(listing);
    assert Plan([], Ok(listing)) == Ok(Jobs(names));
    var js := Jobs(names);
    forall i, j | 0 <= i < |js| && 0 <= j < |js|
      ensures js[i].output != js[j].input
    {
      var g := names[j];
      assert g in names;
      assert g in listing;
      OutputNeverInput(names[i], g);
    }
  }
}

=== FILE: pathext.dfy ===
/**
  Node's `path.extname` for POSIX paths, which `run` applies to every directory entry
  while it discovers the working set. The function looks only at the last path component,
  after any run of trailing '/' is ignored.
 */
module PathExt {
  import opened Wrappers
  import opened Strings

  /** `p` without its trailing run of '/' characters. */
  function TrimTrailingSlashes(p: string): (r: string)
    ensures |r| <= |p| && r == p[..|r|]
    ensures |r| == 0 || r[|r| - 1] != '/'
    ensures forall k :: |r| <= k < |p| ==> p[k] == '/'
  {
    if |p| > 0 && p[|p| - 1] == '/' then TrimTrailingSlashes(p[..|p| - 1]) else p
  }

  /** The last path component: what follows the last '/' once trailing slashes are gone. */
  function Basename(p: string): (r: string)
    ensures '/' !in r
    ensures EndsWith(TrimTrailingSlashes(p), r)
    ensures var t := TrimTrailingSlashes(p); |r| == |t| || t[|t| - |r| - 1] == '/'
    ensures '/' !in p ==> r == p
  {
    var t := TrimTrailingSlashes(p);
    match LastIndexOf(t, '/')
    case None => t
    case Some(k) => t[k + 1..]
  }

  /**
    The extension of a single component: the suffix from its last '.', except that a
    component whose only dots lead it (".profile"), a component without a dot, and ".."
    have none.
   */
  function NameExt(c: string): (r: string)
    ensures r == "" <==> |c| <= 1 || '.' !in c[1..] || c == ".."
    ensures r != "" ==> |r| < |c| && EndsWith(c, r) && r[0] == '.' && '.' !in r[1..]
  {
    match LastIndexOf(c, '.')
    case None => ""
    case Some(k) => if k == 0 || c == ".." then "" else c[k..]
  }

  /** `path.extname(p)`. */
  function Extname(p: string): (r: string)
    ensures r == "" || (r[0] == '.' && '.' !in r[1..] && '/' !in r && EndsWith(TrimTrailingSlashes(p), r))
    ensures '/' !in p ==> r == NameExt(p)
  {
    NameExt(Basename(p))
  }

  /** Two suffixes of one string that each start with their only '.' are the same. */
  lemma DotSuffixUnique(p: string, r: string, e: string)
    requires EndsWith(p, r) && EndsWith(p, e)
    requires |r| > 0 && r[0] == '.' && '.' !in r[1..]
    requires |e| > 0 && e[0] == '.' && '.' !in e[1..]
    ensures r == e
  {
    if |r| >= |e| {
      SuffixOfSuffix(p, r, e);
      assert r[|r| - |e|] == '.';
    } else {
      SuffixOfSuffix(p, e, r);
    }
  }

  /** A component made of a non-empty stem and a dotted extension has that extension. */
  lemma ExtnameOfStemAndExt(stem: string, ext: string)
    requires |stem| > 0 && '/' !in stem + ext && stem + ext != ".."
    requires |ext| > 0 && ext[0] == '.' && '.' !in ext[1..]
    ensures Extname(stem + ext) == ext
  {
    var c := stem + ext;
    assert c[1..][|stem| - 1] == '.';
    assert EndsWith(c, ext);
    DotSuffixUnique(c, NameExt(c), ext);
  }

  /** A name that ends in a suffix starting with its only '.' has that extension or none. */
  lemma ExtnameOfDotSuffix(p: string, e: string)
    requires EndsWith(p, e)
    requires |e| > 0 && e[0] == '.' && '.' !in e[1..] && e[|e| - 1] != '/'
    ensures Extname(p) == "" || Extname(p) == e
  {
    assert p[|p| - 1] == e[|e| - 1];
    assert TrimTrailingSlashes(p) == p;
    var r := Extname(p);
    if r != "" {
      DotSuffixUnique(p, r, e);
    }
  }

  /**
    A name ending in ".json" has extension ".json" or, when the dot opens its last
    component, none at all.
   */
  lemma ExtnameOfJsonName(p: string)
    requires EndsWith(p, ".json")
    ensures Extname(p) == "" || Extname(p) == ".json"
  {
    assert ".json"[1..] == "json";
    ExtnameOfDotSuffix(p, ".json");
  }
}

=== FILE: scenarios.dfy ===
/** Discovery and naming worked through for the kinds of names a workflow directory holds. */
module Scenarios {
  import opened Wrappers
  import opened Strings
  import opened PathExt
  import opened Sequences
  import opened Decompile

  /** The discovery regex on some extensions: it is case-sensitive and unanchored. */
  lemma RegexCases()
    ensures MatchesYaml(".yml") && MatchesYaml(".yaml") && MatchesYaml(".ymlx")
    ensures !MatchesYaml(".json") && !MatchesYaml(".YML") && !MatchesYaml(".md") && !MatchesYaml("")
  {
    assert MatchHere(".yml", 1) && MatchHere(".yaml", 1) && MatchHere(".ymlx", 1);
    assert !MatchHere(".json", 0) && !MatchHere(".json", 1) && !MatchHere(".json", 2);
    assert !MatchHere(".json", 3) && !MatchHere(".json", 4);
    assert !MatchHere(".md", 0) && !MatchHere(".md", 1) && !MatchHere(".md", 2);
    assert !MatchHere(".YML", 0) && !MatchHere(".YML", 1) && !MatchHere(".YML", 2) && !MatchHere(".YML", 3);
  }

  /** For an entry made of a stem and a dotted extension, the extension alone decides discovery. */
  lemma ExtensionDecidesDiscovery(stem: string, ext: string)
    requires |stem| > 0 && '/' !in stem + ext && stem + ext != ".."
    requires |ext| > 0 && ext[0] == '.' && '.' !in ext[1..]
    ensures Discoverable(stem + ext) <==> MatchesYaml(ext)
  {
    ExtnameOfStemAndExt(stem, ext);
  }

  /** Entries without a dot after their first character (".yml", "Makefile") are never discovered. */
  lemma NoExtensionNotDiscovered(f: string)
    requires '/' !in f && (|f| <= 1 || '.' !in f[1..])
    ensures !Discoverable(f)
  {
    RegexCases();
  }

  /** Discovery keeps the ".yml" and ".yaml" entries of such a listing and skips the ".md" one. */
  lemma DiscoverMixedListing(a: string, b: string, c: string)
    requires |a| > 0 && |b| > 0 && |c| > 0
    requires '/' !in a + ".yml" && '/' !in b + ".md" && '/' !in c + ".yaml"
    ensures Discover([a + ".yml", b + ".md", c + ".yaml"]) == [a + ".yml", c + ".yaml"]
  {
    StemExtDiscoverable(a, ".yml", true);
    StemExtDiscoverable(b, ".md", false);
    StemExtDiscoverable(c, ".yaml", true);
    FilterSkipsMiddle(a + ".yml", b + ".md", c + ".yaml", Discoverable);
  }

  /** A stem with ".yml" or ".yaml" is discovered; with ".md" it is not. */
  lemma StemExtDiscoverable(stem: string, ext: string, expected: bool)
    requires |stem| > 0 && '/' !in stem + ext
    requires ext in {".yml", ".md", ".yaml"} && expected == (ext != ".md")
    ensures Discoverable(stem + ext) == expected
  {
    RegexCases();
    ExtensionDecidesDiscovery(stem, ext);
  }

  /**
    A listing of a ".yml" entry, a ".md" entry and a ".yaml" entry plans two jobs in
    listing order: the ".yml" entry is written under its ".json" name and the ".yaml"
    entry under its own name.
   */
  lemma DiscoveryPlan(a: string, b: string, c: string)
    requires |a| > 0 && |b| > 0 && |c| > 0
    requires '/' !in a + ".yml" && '/' !in b + ".md" && '/' !in c + ".yaml"
    ensures Plan([], Ok([a + ".yml", b + ".md", c + ".yaml"])) == Ok([
      Job(a + ".yml", BaseDir + "/" + (a + ".yml"), BaseDir + "/src/" + (a + ".json")),
      Job(c + ".yaml", BaseDir + "/" + (c + ".yaml"), BaseDir + "/src/" + (c + ".yaml"))])
  {
    var x, z := a + ".yml", c + ".yaml";
    MixedListingWorkingSet(a, b, c);
    TwoJobs(x, z);
    RenameYml(a);
    RenameYaml(c);
  }

  /** The working set of such a listing is its ".yml" and ".yaml" entries. */
  lemma MixedListingWorkingSet(a: string, b: string, c: string)
    requires |a| > 0 && |b| > 0 && |c| > 0
    requires '/' !in a + ".yml" && '/' !in b + ".md" && '/' !in c + ".yaml"
    ensures Plan([], Ok([a + ".yml", b + ".md", c + ".yaml"])) == Ok(Jobs([a + ".yml", c + ".yaml"]))
  {
    DiscoverMixedListing(a, b, c);
  }

  /** Two working-set entries make two jobs, in order. */
  lemma TwoJobs(x: string, z: string)
    ensures Jobs([x, z]) == [Job(x, InputPath(x), OutputPath(x)), Job(z, InputPath(z), OutputPath(z))]
  {
    assert [x, z][1..] == [z];
  }

  /** A ".yml" name is renamed to the same stem with ".json". */
  lemma RenameYml(stem: string)
    ensures Rename(stem + ".yml") == stem + ".json"
  {
    var x := stem + ".yml";
    assert x[..|x| - 4] == stem;
  }

  /** A ".yaml" name keeps its name: only the three-letter spelling is rewritten. */
  lemma RenameYaml(stem: string)
    ensures Rename(stem + ".yaml") == stem + ".yaml"
  {
    var z := stem + ".yaml";
    assert z[|z| - 4] == 'y';
  }

  /** An explicit "custom.yaml" is read and written under its own name, listed directory or not. */
  lemma ExplicitYamlArg(listing: Result<seq<string>, DiscoveryError>)
    ensures Plan(["custom.yaml"], listing) == Ok([
      Job("custom.yaml", BaseDir + "/" + "custom.yaml", BaseDir + "/src/" + "custom.yaml")])
  {
    RenameYaml("custom");
    assert "custom" + ".yaml" == "custom.yaml";
    assert ["custom.yaml"][1..] == [];
    assert Jobs(["custom.yaml"]) == [Job("custom.yaml", InputPath("custom.yaml"), OutputPath("custom.yaml"))];
  }

  /**
    Explicit arguments are not filtered, and two of them can be planned onto the same
    output file: "a.yml" and "a.json" both write "src/a.json".
   */
  lemma ExplicitArgsMayCollide()
    ensures var r := Plan(["a.yml", "a.json"], Err(Unlistable));
      r.Ok? && |r.value| == 2 && r.value[0].output == r.value[1].output
  {
  }
}

=== FILE: sequences.dfy ===
/** Generic facts about sequences: subsequences, filtering and repeats. */
module Sequences {

  /** `a` can be obtained from `b` by deleting elements, keeping the rest in order. */
  ghost predicate IsSubsequence<T>(a: seq<T>, b: seq<T>)
    decreases |b|
  {
    if |a| == 0 then true
    else if |b| == 0 then false
    else (a[0] == b[0] && IsSubsequence(a[1..], b[1..])) || IsSubsequence(a, b[1..])
  }

  /** No element of `s` appears twice. */
  predicate NoDuplicates<T(==)>(s: seq<T>) {
    forall i, j :: 0 <= i < j < |s| ==> s[i] != s[j]
  }

  /** `s.filter(keep)`: the elements that satisfy `keep`, in their original order. */
  function Filter<T(!new)>(s: seq<T>, keep: T -> bool): (r: seq<T>)
    ensures IsSubsequence(r, s)
    ensures forall x :: multiset(r)[x] == if keep(x) then multiset(s)[x] else 0
  {
    if |s| == 0 then []
    else
      var rest := Filter(s[1..], keep);
      assert s == [s[0]] + s[1..];
      if keep(s[0]) then [s[0]] + rest else rest
  }

  /** Filtering three elements of which only the middle one fails the test. */
  lemma FilterSkipsMiddle<T(!new)>(x: T, y: T, z: T, keep: T -> bool)
    requires keep(x) && !keep(y) && keep(z)
    ensures Filter([x, y, z], keep) == [x, z]
  {
    var l := [x, y, z];
    assert l[1..] == [y, z] && l[1..][1..] == [z] && l[1..][1..][1..] == [];
    assert Filter([z], keep) == [z] + Filter([], keep);
    assert Filter([y, z], keep) == [z];
  }

  /** Filtering keeps exactly the members that satisfy the test. */
  lemma FilterMembers<T(!new)>(s: seq<T>, keep: T -> bool)
    ensures forall x :: x in Filter(s, keep) <==> x in s && keep(x)
  {
    var r := Filter(s, keep);
    forall x
      ensures x in r <==> x in s && keep(x)
    {
      assert x in r <==> multiset(r)[x] > 0;
      assert x in s <==> multiset(s)[x] > 0;
    }
  }

  /** Filtering a sequence without repeats gives a sequence without repeats. */
  lemma {:induction false} FilterNoDuplicates<T(!new)>(s: seq<T>, keep: T -> bool)
    ensures NoDuplicates(s) ==> NoDuplicates(Filter(s, keep))
  {
    if |s| > 0 && NoDuplicates(s) {
      var rest := Filter(s[1..], keep);
      assert NoDuplicates(s[1..]) by {
        forall i, j | 0 <= i < j < |s| - 1
          ensures s[1..][i] != s[1..][j]
        {
          assert s[1..][i] == s[i + 1] && s[1..][j] == s[j + 1];
        }
      }
      FilterNoDuplicates(s[1..], keep);
      if keep(s[0]) {
        FilterMembers(s[1..], keep);
        assert s[0] !in s[1..];
        assert s[0] !in rest;
        var r := [s[0]] + rest;
        forall i, j | 0 <= i < j < |r|
          ensures r[i] != r[j]
        {
          if i == 0 {
            assert r[j] == rest[j - 1];
          } else {
            assert r[i] == rest[i - 1] && r[j] == rest[j - 1];
          }
        }
      }
    }
  }
}

=== FILE: strings.dfy ===
/** Small facts about strings and sequences that the path and naming logic relies on. */
module Strings {
  import opened Wrappers

  /** `suffix` is the tail of `s` (JavaScript's `s.endsWith(suffix)`). */
  predicate EndsWith(s: string, suffix: string) {
    |suffix| <= |s| && s[|s| - |suffix|..] == suffix
  }

  /** `t` occurs in `s` starting at index `i`. */
  predicate OccursAt(s: string, t: string, i: int) {
    0 <= i && i + |t| <= |s| && s[i..i + |t|] == t
  }

  /** `t` occurs somewhere in `s`. */
  ghost predicate Contains(s: string, t: string) {
    exists i :: OccursAt(s, t, i)
  }

  /** Index of the last occurrence of `c` in `s`, if any. */
  function LastIndexOf(s: string, c: char): (r: Option<nat>)
    ensures r.None? <==> c !in s
    ensures r.Some? ==> r.value < |s| && s[r.value] == c && c !in s[r.value + 1..]
  {
    if |s| == 0 then None
    else if s[|s| - 1] == c then Some(|s| - 1)
    else
      var r := LastIndexOf(s[..|s| - 1], c);
      assert s == s[..|s| - 1] + [s[|s| - 1]];
      r
  }

  /** Of two suffixes of the same string, the shorter is a suffix of the longer. */
  lemma SuffixOfSuffix(s: string, long: string, short: string)
    requires EndsWith(s, long) && EndsWith(s, short) && |short| <= |long|
    ensures EndsWith(long, short)
  {
    assert long[|long| - |short|..] == s[|s| - |short|..];
  }

  /** A fixed prefix can be cancelled from both sides of an equation. */
  lemma PrefixCancel(p: string, x: string, y: string)
    requires p + x == p + y
    ensures x == y
  {
    assert x == (p + x)[|p|..];
    assert y == (p + y)[|p|..];
  }
}

=== FILE: wrappers.dfy ===
/** The Option and Result datatypes used across the model. */
module Wrappers {

  /** A value that may be absent. */
  datatype Option<+T> = None | Some(value: T)

  /** The outcome of a step that can fail with an error of type E. */
  datatype Result<+T, +E> = Ok(value: T) | Err(error: E)
}
